=== FILE: README.md ===
# ST_Client decision logic, modelled in Dafny

`ST_Client` is the HTTP client of a Homebridge plugin for SmartThings. It
fetches devices from the SmartThings cloud and relays HomeKit commands either
to the cloud or, optionally, straight to the local hub. Around its HTTP calls
sits a small amount of decision logic, and that is what this project models:

- **Local-hub health** (`hub_state.dfy`, module `HubState`). The flags
  `useLocal` and `localDisabled`, the hub address `hubIp` and the unused
  `localErrCnt`. Transitions are the constructor, `localHubErr(hasErr)` and
  `updateGlobals`. The query is `sendAsLocalCmd()`. The invariant is that
  local commands are never on while the hub is marked disabled.
- **Error classification** (`errors.dfy`, module `Errors`). `handleError`
  sorts an error into token error (401), authentication error (403), DNS
  failure, local-hub failure or unexpected (reported to sentry), or throws
  itself when the error has no string message. Only the local-hub failure
  reaches the state machine.
- **Request construction** (`requests.dfy`, module `Requests`). There are two
  builders: the command request of `processDeviceCmd` and the start-direct
  request of `sendStartDirect`. Each goes either to the cloud with the access
  token or to `http://<hubIp>:39500/event` without it.
- **Debouncing** (`debounce.dfy`, module `Debounce`). A command waits 1000,
  0 or 200 ms depending on its name. It is filed under the timer key
  `deviceid_cmd`, and a later command with the same key replaces it.
- **Settling a sent command** (`completion.dfy`, module `Completion`). The
  success and failure handlers of the closure that `processDeviceCmd`
  returns, including how often the HomeKit callback runs.
- **The client as a whole** (`client.dfy`, module `Client`). Hub state,
  pending timers and the outgoing effects, driven by a sequence of events.
  Every event is an entry point or a settled request. A run uses either the
  settle handlers as written or the corrected ones (see "## Findings"). The
  two kinds of run agree on everything except callback counts.

Everything is an immutable record with pure transition functions. The
transport, timers and logging are reduced to the values they carry:
`wrappers.dfy` and `strings.dfy` hold `Option` and JavaScript's
`startsWith`.

One consequence of the code as written deserves a mention. The constructor
starts with `useLocal = false`, and `updateGlobals` ignores its `useLocal`
argument. Neither `localHubErr` transition can leave the all-off state.
So no sequence of calls ever routes a command or a start-direct request to
the local hub, and `localHubErr` never calls `sendStartDirect`
(`Client.RunFromFreshClientStaysCloud`). This holds for the handlers as
written and for the corrected ones alike.
The local path is switched off in the code itself. The constructor's
`this.useLocal = false` keeps the reading of `platform.local_commands` only as
a comment (src/ST_Client.js:14). `updateGlobals` does the same with
`(useLocal === true)` (src/ST_Client.js:52).

## Model

| member | source | states |
|---|---|---|
| HubState.Init | src/ST_Client.js:11-26 | the constructor starts with `useLocal` false (so commands cannot go to the hub), the hub not disabled, `localErrCnt` 0, the platform's hub address, and the invariant holding |
| HubState.LocalHubErr | src/ST_Client.js:32-47 | an error disables local commands only from `useLocal ∧ ¬localDisabled` and otherwise changes nothing; a success re-enables a disabled hub and then issues exactly one start-direct request, otherwise changes nothing; the address never changes; the invariant is preserved |
| HubState.UpdateGlobals | src/ST_Client.js:49-53 | stores the new address, forces local commands off whatever `useLocal` says, leaves `localDisabled` alone, so commands cannot go to the hub afterwards |
| HubState.SendAsLocalCmd | src/ST_Client.js:28-30 | `sendAsLocalCmd()`: local sending needs a hub address, and under the invariant it happens only while the hub is not disabled |
| HubState.ErrorLeavesLocalOff | src/ST_Client.js:32-38 | under the invariant an error always leaves local commands off, and the hub is disabled afterwards exactly when local commands were on or it already was |
| HubState.SuccessClearsDisabled | src/ST_Client.js:39-46 | under the invariant a success never leaves the hub disabled, and local commands are on afterwards exactly when they were on or the hub had been disabled |
| HubState.DisableThenRecover | src/ST_Client.js:32-47 | an error followed by a success restores the original state, and the only start-direct request comes from the success |
| HubState.ReportsAreIdempotent | src/ST_Client.js:32-47 | repeating the same report changes nothing more and issues no second start-direct request |
| HubState.UpdateGlobalsLastWins | src/ST_Client.js:49-53 | two updates in a row equal the second one alone |
| Errors.Classify | src/ST_Client.js:55-75 | 401 gives a token error and 403 an authentication error. Otherwise an error without a string message makes `handleError` itself throw. Otherwise a `getaddrinfo EAI_AGAIN` message is a network error, and a connect timeout with `allowLocal` is a local-hub failure. Everything else is reported to sentry. Each outcome is given by an if-and-only-if |
| Errors.HandleError | src/ST_Client.js:55-75 | only the local-hub-failure outcome changes state, by `localHubErr(true)`; the address is kept and the invariant preserved |
| Errors.TimeoutIsNeverDnsFailure | src/ST_Client.js:64-66 | no message starts with both the DNS prefix and the connect-timeout prefix, so checking for DNS first never hides a timeout |
| Errors.HandleErrorChangesStateIff | src/ST_Client.js:55-75 | under the invariant an error changes client state exactly when it meets all the local-hub-failure conditions while local commands are on |
| Errors.DefaultNeverTouchesHub | src/ST_Client.js:55-67 | with `allowLocal` at its default (as `getDevices` and `getDevice` call it) an error never changes state and is never a local-hub failure |
| Requests.CommandRequest | src/ST_Client.js:152-178 | the request goes to the hub, without a token, exactly when `useLocal` holds and `hubIp` is defined. The hub request goes to `http://<hubIp>:39500/event` with a body wrapping deviceid, command, values, evtsource and `hkCommand`. The cloud request goes to `app_url app_id/deviceid/command/cmd` with the token and the raw values |
| Requests.StartDirectRequest | src/ST_Client.js:233-258 | same routing rule as commands; the hub request drops the token but keeps the direct-connection body, which is the same on both routes |
| Requests.CommandIdentityPreserved | src/ST_Client.js:155-178 | either route carries the command's device, name and values: the hub request in its body, the cloud request in URL and body |
| Requests.RecoveryRoutesToHub | src/ST_Client.js:39-46 | when a success re-enables a disabled hub whose address is known, the start-direct request it triggers and the next commands go to the hub |
| Requests.ErrorOrUpdateRoutesToCloud | src/ST_Client.js:28-53 | after an error report or a globals update, commands go to the cloud with the access token |
| Debounce.Delay | src/ST_Client.js:121-143 | 1000 ms exactly for the nine `set*` commands, 0 ms exactly for on/off/open/close, 200 ms exactly for every other name |
| Debounce.TimerKey | src/ST_Client.js:120 | the timer key is the device id, then one '_' at the position given by the id's length, then the command; both parts can be read back from those positions |
| Debounce.SplitKeyInvertsTimerKey | src/ST_Client.js:120 | for a device id without '_', splitting the timer key at its first '_' gives back the device id and the command |
| Debounce.TimerKeyInjective | src/ST_Client.js:120 | for device ids without '_', equal timer keys mean the same device and command |
| Debounce.TimerKeyCollision | src/ST_Client.js:120 | with a '_' in the device id, two different (device, command) pairs share one timer key |
| Debounce.ScheduleCommand | src/ST_Client.js:119-150 | builds the request at scheduling time and files it with its delay under the timer key; other keys keep their pending commands |
| Debounce.LaterCommandReplaces | src/ST_Client.js:144-148 | a second command under the same key leaves only the second pending |
| Debounce.DistinctKeysCommute | src/ST_Client.js:144-148 | commands under different keys do not interfere, in either order |
| Completion.SettleAsWritten | src/ST_Client.js:179-204 | the handlers as written invoke the callback twice exactly when all of these hold: the request succeeds, there is a callback, it throws, and `handleError` does not itself throw on the thrown value |
| Completion.CallbackTwiceAsWritten | src/ST_Client.js:182-200 | a successful send whose callback throws an error carrying a string message invokes the callback twice, whatever the status |
| Completion.Settle | src/ST_Client.js:179-204 | with the callback cleared before it runs, it runs at most once. It runs exactly once when there is a callback, the transport call did not throw, and `handleError` did not throw on a rejection. Success reports `localHubErr(false)`; a failure goes through `handleError` with `allowLocal`; the invariant is preserved |
| Completion.SettleAgreesWhenCallbackReturns | src/ST_Client.js:179-204 | the repair changes neither the hub state nor the start-direct effect, and changes nothing at all when the callback returns normally |
| Client.NewClient | src/ST_Client.js:11-26 | a new client has the constructor's hub state, no pending command, and no effects yet |
| Client.Apply | src/ST_Client.js:32-279 | one event never changes the configuration; only a scheduled command changes the timers, and it leaves the hub state alone |
| Client.NewClientIsQuiet | src/ST_Client.js:14-24 | a new client has both hub flags off and no hub-bound pending request |
| Client.FetchNeverTouchesHub | src/ST_Client.js:91-94 | a failed `getDevices` or `getDevice` leaves the whole client unchanged, because `allowLocal` stays at its default |
| Client.FailuresAllowLocal | src/ST_Client.js:226-228 | failed status updates, start-direct requests and commands all go through `handleError` with `allowLocal` set |
| Client.SuccessesReportReachable | src/ST_Client.js:265-269 | a start-direct answer with data and a command success whose callback returns report `localHubErr(false)`; a start-direct answer without data and a status-update success change nothing |
| Client.ApplyPreservesInv | src/ST_Client.js:32-75 | every entry point and settled request preserves the invariant, with either version of the settle handlers |
| Client.RunPreservesInv | src/ST_Client.js:32-53 | the invariant holds after any sequence of events from a state that satisfies it |
| Client.HubIpFollowsUpdates | src/ST_Client.js:49-53 | after any sequence of events the hub address is the one from the last globals update, and `localErrCnt` never changes |
| Client.CallbacksPerCommandBounded | src/ST_Client.js:186-198 | over any run, the callback runs at most once per settled command that has one with the corrected handlers, and at most twice with the handlers as written |
| Client.ApplyAgreesAcrossHandlers | src/ST_Client.js:179-204 | one event applied with the handlers as written and with the corrected ones leaves states that differ at most in the callback count |
| Client.RunAgreesFrom | src/ST_Client.js:179-204 | the same over any sequence of events, from any two states that differ at most in the callback count |
| Client.RunAgreesAcrossHandlers | src/ST_Client.js:179-204 | runs with the handlers as written and with the corrected ones end in the same hub state, timers and count of recovery start-direct requests |
| Client.PendingFixedUntilReplaced | src/ST_Client.js:144-154 | the entry under a timer key (the last command scheduled there, waiting or already sent) keeps the request built when it was scheduled, whatever happens to the hub state, until a command under the same key replaces it |
| Client.ApplyKeepsQuiet | src/ST_Client.js:14-53 | from the all-off state, no event turns a hub flag on, adds a hub-bound pending request, or makes `localHubErr` call `sendStartDirect` |
| Client.RunFromQuietStaysCloud | src/ST_Client.js:32-53 | the same over any sequence of events; the start-direct request built on the resulting state goes to the cloud as well |
| Client.RunFromFreshClientStaysCloud | src/ST_Client.js:11-53 | from the constructor, with the handlers as written or corrected, no sequence of events sends a command or a start-direct request to the local hub, and `localHubErr` never calls `sendStartDirect` |

## Findings

| source | as written | input that shows it | evidently intended | confidence | as-written member | corrected member |
|---|---|---|---|---|---|---|
| src/ST_Client.js:182-200 | the success handler clears `callback` only after calling it, and `.catch` is chained after `.then`, so an exception from the callback reaches the failure handler with `callback` still set | the command request succeeds and the HomeKit callback throws an `Error` on its first call | the callback runs at most once, as the `callback = undefined` in both handlers shows | low, not executed | Completion.SettleAsWritten (Completion.CallbackTwiceAsWritten) | Completion.Settle |

`Client.Run` takes either version. The at-most-once bound of
`Client.CallbacksPerCommandBounded` holds only for the corrected handlers.
`Client.RunAgreesAcrossHandlers` shows that the repair changes nothing
else.

## Left out

- HTTP transport (`axios`) in `getDevices`, `getDevice`, `sendUpdateStatus`, `sendStartDirect` and the command closure: a foreign library. The model keeps the start-direct request builder and, for every request, only the effect its settlement has on client state.
- `getDevices`, `getDevice` and `sendUpdateStatus` request construction: each is a fixed cloud request with the access token that no decision depends on. Their failures appear as `Client.Event` values (`FetchFailed`, `StatusSettled`).
- The module-level `timers` map is shared by every `ST_Client` instance in the process, so one instance's command can cancel another's pending command under the same key. The model has one client per process and keeps the map as a field of `Client.ClientState`.
- Direct calls of `sendStartDirect` by the platform are not counted: `Client.ClientState.recoveryStartDirects` counts only the calls `localHubErr(false)` makes. Their settlement is the `StartDirectSettled` event, and their routing is `Requests.StartDirectRequest`.
- Settlements are events of their own, not tied to a scheduled command. When a later command replaces a pending one, `clearTimeout` cancels the earlier closure, so its HomeKit callback is never called. The model does not track that.
- `setTimeout`/`clearTimeout` timing and promise scheduling: concurrency and time. Debouncing is modelled as the delay value and the map of pending commands. Firing is not an event: the source never removes a fired timer's entry.
- `clearAndSetTimeout`: it uses `this.timers`, which is never initialised (the module uses a top-level `timers`), so it has no defined behaviour.
- `url.parse` and `urlItems` in the constructor: an external parser, and `urlItems` is never read.
- Logging (`log.error`, `notice`, `good`, `debug`) and `sentryErrorEvent`: side effects. Reporting to sentry is kept as the `Unexpected` outcome.
- The constants module: `platformName` and `pluginVersion` are opaque strings in `Requests.Config`.
- `hubIp`: modelled as `Option<string>`, with None for `undefined`. A defined non-string value such as `null` counts as defined, as in the source, and is represented by its text in the URL.
- `err.message`: modelled as `Option<string>`, with None for anything that is not a string. That covers a thrown string or a plain object. In that case `handleError` throws at its `startsWith` call unless the status is 401 or 403; the model records this as the `HandlerThrew` outcome and leaves the state unchanged. What becomes of that second exception (an unhandled rejection) is not modelled.
- `err.status`: compared strictly, as `===` does. It is `None` when absent or not a number.
- Completion.SettleAsWritten: only the callback is modelled as able to throw inside the success handler. A throw from `log.debug`, `JSON.stringify` or `localHubErr` there is not modelled.
- The command's `vals` and response data are opaque values (`Requests.Value`); response data matters only as present or absent for the start-direct request.

=== FILE: client.dfy ===
/** The client as a whole: hub state, the pending-command timers, and the
    effects that leave it (start-direct requests triggered by a hub recovery,
    callback invocations), driven by a sequence of events. Each event is one
    entry point of ST_Client or one settled request. A run is taken either
    with the settle handlers as written or with the corrected ones. */
module Client {
  import opened Wrappers
  import opened HubState
  import opened Errors
  import opened Requests
  import opened Debounce
  import opened Completion

  /** `recoveryStartDirects` counts the `sendStartDirect` calls that
      `localHubErr(false)` makes; direct calls of `sendStartDirect` by the
      platform are not counted. */
  datatype ClientState = ClientState(hub: State, cfg: Config, timers: Timers, recoveryStartDirects: nat, callbackCalls: nat)

  /** Which version of the command's settle handlers a run uses. */
  datatype Handlers = AsWritten | Corrected

  datatype Event =
    | GlobalsUpdated(hubIp: Option<string>, useLocal: bool)                       // updateGlobals
    | CommandScheduled(deviceid: string, cmd: string, vals: Value)                // sendDeviceCommand
    | CommandSettled(hasCallback: bool, t: Transport, cbThrows: Option<ErrorInfo>) // the processDeviceCmd closure
    | StartDirectSettled(t: Transport)                                            // sendStartDirect
    | StatusSettled(t: Transport)                                                 // sendUpdateStatus
    | FetchFailed(err: ErrorInfo)                                                 // getDevices / getDevice

  /** The constructor: hub address from the platform, nothing pending. */
  function NewClient(cfg: Config, localHubIp: Option<string>): (c: ClientState)
    ensures c.hub == Init(localHubIp) && c.cfg == cfg
    ensures c.timers == map[] && c.recoveryStartDirects == 0 && c.callbackCalls == 0
  {
    ClientState(Init(localHubIp), cfg, map[], 0, 0)
  }

  function SettleWith(h: Handlers, s: State, hasCallback: bool, t: Transport, cbThrows: Option<ErrorInfo>): Settled {
    match h
    case AsWritten => SettleAsWritten(s, hasCallback, t, cbThrows)
    case Corrected => Settle(s, hasCallback, t, cbThrows)
  }

  function Apply(c: ClientState, e: Event, h: Handlers): (r: ClientState)
    ensures r.cfg == c.cfg
    ensures !e.CommandScheduled? ==> r.timers == c.timers
    ensures e.CommandScheduled? ==> r.hub == c.hub
  {
    match e
    case GlobalsUpdated(ip, useLocal) =>
      c.(hub := UpdateGlobals(c.hub, ip, useLocal))
    case CommandScheduled(deviceid, cmd, vals) =>
      c.(timers := ScheduleCommand(c.hub, c.cfg, c.timers, deviceid, cmd, vals))
    case CommandSettled(hasCallback, t, cbThrows) =>
      var st := SettleWith(h, c.hub, hasCallback, t, cbThrows);
      c.(hub := st.state,
         recoveryStartDirects := c.recoveryStartDirects + (if st.startDirect then 1 else 0),
         callbackCalls := c.callbackCalls + st.callbackCalls)
    case StartDirectSettled(t) =>
      (match t
       case Resolved(hasData) =>
         if hasData then
           var st := LocalHubErr(c.hub, false);
           c.(hub := st.state, recoveryStartDirects := c.recoveryStartDirects + (if st.startDirect then 1 else 0))
         else c
       case Rejected(err) => c.(hub := HandleError(c.hub, err, true).state)
       case Threw => c)
    case StatusSettled(t) =>
      if t.Rejected? then c.(hub := HandleError(c.hub, t.err, true).state) else c
    case FetchFailed(err) =>
      c.(hub := HandleError(c.hub, err, false).state)
  }

  function Run(c: ClientState, events: seq<Event>, h: Handlers): ClientState
    decreases |events|
  {
    if |events| == 0 then c else Run(Apply(c, events[0], h), events[1..], h)
  }

  /** The address the hub state holds after `events`: that of the last globals update, if any. */
  function LastHubIp(ip: Option<string>, events: seq<Event>): Option<string>
    decreases |events|
  {
    if |events| == 0 then ip
    else LastHubIp(if events[0].GlobalsUpdated? then events[0].hubIp else ip, events[1..])
  }

  function CallbackSettlements(events: seq<Event>): nat
    decreases |events|
  {
    if |events| == 0 then 0
    else (if events[0].CommandSettled? && events[0].hasCallback then 1 else 0) + CallbackSettlements(events[1..])
  }

  /** The most callback invocations one settled command can cause. */
  function MaxCallsPerSettle(h: Handlers): nat {
    match h
    case AsWritten => 2
    case Corrected => 1
  }

  /** Every pending request is a cloud request carrying the access token. */
  predicate AllPendingToCloud(c: ClientState) {
    forall k :: k in c.timers ==> c.timers[k].request.accessToken == Some(c.cfg.accessToken)
  }

  /** Local commands stay off: neither flag is set. */
  predicate Quiet(s: State) {
    !s.useLocal && !s.localDisabled
  }

  /** Two client states that differ at most in their callback count. */
  predicate SameButCallbacks(c1: ClientState, c2: ClientState) {
    c1.(callbackCalls := 0) == c2.(callbackCalls := 0)
  }

  /** The constructor leaves both hub flags off. */
  lemma NewClientIsQuiet(cfg: Config, localHubIp: Option<string>)
    ensures Quiet(NewClient(cfg, localHubIp).hub) && AllPendingToCloud(NewClient(cfg, localHubIp))
  {
  }

  /** `getDevices` and `getDevice` leave `allowLocal` at its default, so their
      failures never change the client. */
  lemma FetchNeverTouchesHub(c: ClientState, err: ErrorInfo, h: Handlers)
    ensures Apply(c, FetchFailed(err), h) == c
  {
  }

  /** A failed status update, start-direct request or command goes through
      `handleError` with `allowLocal` set: a connect timeout reports the hub
      as unreachable. */
  lemma FailuresAllowLocal(c: ClientState, err: ErrorInfo, hasCallback: bool, cbThrows: Option<ErrorInfo>, h: Handlers)
    ensures Apply(c, StatusSettled(Rejected(err)), h).hub == HandleError(c.hub, err, true).state
    ensures Apply(c, StartDirectSettled(Rejected(err)), h).hub == HandleError(c.hub, err, true).state
    ensures Apply(c, CommandSettled(hasCallback, Rejected(err), cbThrows), h).hub == HandleError(c.hub, err, true).state
  {
  }

  /** A start-direct request answered with data, and a command that succeeds
      without its callback throwing, report the hub as reachable. */
  lemma SuccessesReportReachable(c: ClientState, hasData: bool, hasCallback: bool, h: Handlers)
    ensures Apply(c, StartDirectSettled(Resolved(true)), h).hub == LocalHubErr(c.hub, false).state
    ensures Apply(c, StartDirectSettled(Resolved(false)), h) == c
    ensures Apply(c, CommandSettled(hasCallback, Resolved(hasData), None), h).hub == LocalHubErr(c.hub, false).state
    ensures Apply(c, StatusSettled(Resolved(hasData)), h) == c
  {
  }

  lemma ApplyPreservesInv(c: ClientState, e: Event, h: Handlers)
    requires Inv(c.hub)
    ensures Inv(Apply(c, e, h).hub)
  {
  }

  lemma {:induction false} RunPreservesInv(c: ClientState, events: seq<Event>, h: Handlers)
    requires Inv(c.hub)
    ensures Inv(Run(c, events, h).hub)
    decreases |events|
  {
    if |events| > 0 {
      var c' := Apply(c, events[0], h);
      assert Inv(c'.hub) by { ApplyPreservesInv(c, events[0], h); }
      RunPreservesInv(c', events[1..], h);
    }
  }

  /** The hub address is changed by globals updates only. */
  lemma {:induction false} HubIpFollowsUpdates(c: ClientState, events: seq<Event>, h: Handlers)
    ensures Run(c, events, h).hub.hubIp == LastHubIp(c.hub.hubIp, events)
    ensures Run(c, events, h).hub.localErrCnt == c.hub.localErrCnt
    decreases |events|
  {
    if |events| > 0 {
      HubIpFollowsUpdates(Apply(c, events[0], h), events[1..], h);
    }
  }

  /** Each settled command invokes its callback at most once with the
      corrected handlers, and at most twice with the handlers as written. */
  lemma {:induction false} CallbacksPerCommandBounded(c: ClientState, events: seq<Event>, h: Handlers)
    ensures Run(c, events, h).callbackCalls <= c.callbackCalls + MaxCallsPerSettle(h) * CallbackSettlements(events)
    decreases |events|
  {
    if |events| > 0 {
      CallbacksPerCommandBounded(Apply(c, events[0], h), events[1..], h);
    }
  }

  lemma ApplyAgreesAcrossHandlers(c1: ClientState, c2: ClientState, e: Event)
    requires SameButCallbacks(c1, c2)
    ensures SameButCallbacks(Apply(c1, e, AsWritten), Apply(c2, e, Corrected))
  {
    if e.CommandSettled? {
      SettleAgreesWhenCallbackReturns(c1.hub, e.hasCallback, e.t, e.cbThrows);
    }
  }

  /** The repair of the settle handlers changes nothing but the callback
      count: runs with either version agree on hub state, timers and
      recovery start-direct requests. */
  lemma {:induction false} RunAgreesAcrossHandlers(c: ClientState, events: seq<Event>)
    ensures Run(c, events, AsWritten).hub == Run(c, events, Corrected).hub
    ensures Run(c, events, AsWritten).timers == Run(c, events, Corrected).timers
    ensures Run(c, events, AsWritten).recoveryStartDirects == Run(c, events, Corrected).recoveryStartDirects
  {
    RunAgreesFrom(c, c, events);
  }

  lemma {:induction false} RunAgreesFrom(c1: ClientState, c2: ClientState, events: seq<Event>)
    requires SameButCallbacks(c1, c2)
    ensures SameButCallbacks(Run(c1, events, AsWritten), Run(c2, events, Corrected))
    decreases |events|
  {
    if |events| > 0 {
      ApplyAgreesAcrossHandlers(c1, c2, events[0]);
      RunAgreesFrom(Apply(c1, events[0], AsWritten), Apply(c2, events[0], Corrected), events[1..]);
    }
  }

  /** The entry under a timer key (the last command scheduled there, waiting
      or already sent) keeps the request built at scheduling time: nothing but
      a later command under the same key changes it, whatever happens to the
      hub state. */
  lemma {:induction false} PendingFixedUntilReplaced(c: ClientState, events: seq<Event>, k: string, h: Handlers)
    requires k in c.timers
    requires forall i :: 0 <= i < |events| && events[i].CommandScheduled? ==>
               TimerKey(events[i].deviceid, events[i].cmd) != k
    ensures k in Run(c, events, h).timers && Run(c, events, h).timers[k] == c.timers[k]
    decreases |events|
  {
    if |events| > 0 {
      var c' := Apply(c, events[0], h);
      assert c'.timers[k] == c.timers[k];
      forall i | 0 <= i < |events[1..]| && events[1..][i].CommandScheduled?
        ensures TimerKey(events[1..][i].deviceid, events[1..][i].cmd) != k
      {
        assert events[1..][i] == events[i + 1];
      }
      PendingFixedUntilReplaced(c', events[1..], k, h);
    }
  }

  lemma ApplyKeepsQuiet(c: ClientState, e: Event, h: Handlers)
    requires Quiet(c.hub) && AllPendingToCloud(c)
    ensures Quiet(Apply(c, e, h).hub) && AllPendingToCloud(Apply(c, e, h))
    ensures Apply(c, e, h).recoveryStartDirects == c.recoveryStartDirects
  {
  }

  /** From the all-off state no sequence of events turns local commands on,
      every command and start-direct request goes to the cloud with the access
      token, and `localHubErr` never triggers `sendStartDirect`. */
  lemma {:induction false} RunFromQuietStaysCloud(c: ClientState, events: seq<Event>, h: Handlers)
    requires Quiet(c.hub) && AllPendingToCloud(c)
    ensures Quiet(Run(c, events, h).hub) && AllPendingToCloud(Run(c, events, h))
    ensures !SendAsLocalCmd(Run(c, events, h).hub)
    ensures !ToHub(StartDirectRequest(Run(c, events, h).hub, c.cfg))
    ensures Run(c, events, h).recoveryStartDirects == c.recoveryStartDirects
    decreases |events|
  {
    if |events| > 0 {
      ApplyKeepsQuiet(c, events[0], h);
      RunFromQuietStaysCloud(Apply(c, events[0], h), events[1..], h);
    }
  }

  /** From the constructor, with the handlers as written or corrected, no
      command or start-direct request ever goes to the local hub, and no hub
      recovery ever triggers a start-direct request. */
  lemma RunFromFreshClientStaysCloud(cfg: Config, localHubIp: Option<string>, events: seq<Event>, h: Handlers)
    ensures !SendAsLocalCmd(Run(NewClient(cfg, localHubIp), events, h).hub)
    ensures AllPendingToCloud(Run(NewClient(cfg, localHubIp), events, h))
    ensures !ToHub(StartDirectRequest(Run(NewClient(cfg, localHubIp), events, h).hub, cfg))
    ensures Run(NewClient(cfg, localHubIp), events, h).recoveryStartDirects == 0
  {
    RunFromQuietStaysCloud(NewClient(cfg, localHubIp), events, h);
  }
}

=== FILE: completion.dfy ===
/** What happens when a scheduled command is finally sent: the closure that
    `processDeviceCmd` returns calls the transport inside a try block and
    attaches `.then(onSuccess).catch(onFailure)`. `onSuccess` invokes the
    callback and reports success to the hub state machine; `onFailure` hands
    the error to `handleError` with `allowLocal` set and invokes the callback.
    Because `.catch` is attached after `.then`, an exception thrown inside
    `onSuccess` also reaches `onFailure`. */
module Completion {
  import opened Wrappers
  import opened HubState
  import opened Errors

  /** How the transport call ended: its promise resolved (with or without
      response data), rejected with an error, or the call threw synchronously
      (caught by the closure's try block). */
  datatype Transport = Resolved(hasData: bool) | Rejected(err: ErrorInfo) | Threw

  /** The effect of one send: the new hub state, how many times the callback
      was invoked, and whether a start-direct request was issued. */
  datatype Settled = Settled(state: State, callbackCalls: nat, startDirect: bool)

  /** Whether `onFailure` gets past `handleError` to its callback call: it
      does not when `handleError` itself throws. */
  predicate FailureHandlerReachesCallback(s: State, e: ErrorInfo) {
    HandleError(s, e, true).outcome != HandlerThrew
  }

  /** The handlers as written: the callback variable is cleared only after the
      callback returns. `hasCallback` is the truthiness of the callback;
      `cbThrows` is Some(e) when invoking it throws `e`. */
  function SettleAsWritten(s: State, hasCallback: bool, t: Transport, cbThrows: Option<ErrorInfo>): (r: Settled)
    ensures r.callbackCalls <= 2
    ensures r.callbackCalls == 2 <==>
              hasCallback && t.Resolved? && cbThrows.Some? &&
              FailureHandlerReachesCallback(s, cbThrows.value)
  {
    match t
    case Threw => Settled(s, 0, false)
    case Rejected(e) =>
      var calls := if hasCallback && FailureHandlerReachesCallback(s, e) then 1 else 0;
      Settled(HandleError(s, e, true).state, calls, false)
    case Resolved(_) =>
      if hasCallback && cbThrows.Some? then
        // the callback threw before being cleared: onFailure sees its
        // exception with the callback still set and, unless handleError
        // throws first, invokes it again
        var e := cbThrows.value;
        Settled(HandleError(s, e, true).state, if FailureHandlerReachesCallback(s, e) then 2 else 1, false)
      else
        var st := LocalHubErr(s, false);
        Settled(st.state, if hasCallback then 1 else 0, st.startDirect)
  }

  /** A resolved send whose callback throws an `Error` with a message invokes
      the callback twice. */
  lemma CallbackTwiceAsWritten(s: State, status: Option<int>, msg: string)
    ensures SettleAsWritten(s, true, Resolved(true), Some(ErrorInfo(status, Some(msg)))).callbackCalls == 2
  {
  }

  /** The handlers with the callback cleared before it is invoked, as the
      clearing in both handlers evidently intends. */
  function Settle(s: State, hasCallback: bool, t: Transport, cbThrows: Option<ErrorInfo>): (r: Settled)
    ensures r.callbackCalls <= 1
    ensures r.callbackCalls == 1 <==>
              hasCallback && !t.Threw? && !(t.Rejected? && !FailureHandlerReachesCallback(s, t.err))
    ensures t.Threw? ==> r.state == s && !r.startDirect
    ensures t.Rejected? ==> r.state == HandleError(s, t.err, true).state && !r.startDirect
    ensures t.Resolved? && !(hasCallback && cbThrows.Some?) ==>
              r == Settled(LocalHubErr(s, false).state, r.callbackCalls, LocalHubErr(s, false).startDirect)
    ensures t.Resolved? && hasCallback && cbThrows.Some? ==>
              r.state == HandleError(s, cbThrows.value, true).state && !r.startDirect
    ensures Inv(s) ==> Inv(r.state)
  {
    match t
    case Threw => Settled(s, 0, false)
    case Rejected(e) =>
      var calls := if hasCallback && FailureHandlerReachesCallback(s, e) then 1 else 0;
      Settled(HandleError(s, e, true).state, calls, false)
    case Resolved(_) =>
      if hasCallback && cbThrows.Some? then
        // the callback was cleared before it threw: onFailure finds none
        Settled(HandleError(s, cbThrows.value, true).state, 1, false)
      else
        var st := LocalHubErr(s, false);
        Settled(st.state, if hasCallback then 1 else 0, st.startDirect)
  }

  /** The repair changes nothing but the second invocation: the two agree on
      every send whose callback returns normally, and on the hub state always. */
  lemma SettleAgreesWhenCallbackReturns(s: State, hasCallback: bool, t: Transport, cbThrows: Option<ErrorInfo>)
    ensures Settle(s, hasCallback, t, cbThrows).state == SettleAsWritten(s, hasCallback, t, cbThrows).state
    ensures Settle(s, hasCallback, t, cbThrows).startDirect == SettleAsWritten(s, hasCallback, t, cbThrows).startDirect
    ensures cbThrows.None? ==> Settle(s, hasCallback, t, cbThrows) == SettleAsWritten(s, hasCallback, t, cbThrows)
  {
  }
}

=== FILE: debounce.dfy ===
/** Per-device command debouncing in `sendDeviceCommand`: each command is held
    for a delay chosen from its name under the timer key `deviceid_cmd`, and a
    new command under the same key replaces the one still pending. The
    scheduling itself (setTimeout/clearTimeout) is reduced to the map of
    pending commands. */
module Debounce {
  import opened Wrappers
  import opened HubState
  import opened Requests

  /** Commands held for a second, so that a slider's stream of values collapses. */
  const ThrottledCommands: set<string> := {
    "setLevel", "setVolume", "setFanSpeed", "setSaturation", "setHue",
    "setColorTemperature", "setHeatingSetpoint", "setCoolingSetpoint", "setThermostatSetpoint"
  }

  /** Commands sent without delay. */
  const ImmediateCommands: set<string> := {"on", "off", "open", "close"}

  function Delay(cmd: string): (ms: nat)
    ensures ms == 1000 <==> cmd in ThrottledCommands
    ensures ms == 0 <==> cmd in ImmediateCommands
    ensures ms == 200 <==> cmd !in ThrottledCommands && cmd !in ImmediateCommands
  {
    match cmd
    case "setLevel" | "setVolume" | "setFanSpeed" | "setSaturation" | "setHue"
       | "setColorTemperature" | "setHeatingSetpoint" | "setCoolingSetpoint"
       | "setThermostatSetpoint" => 1000
    case "on" | "off" | "open" | "close" => 0
    case _ => 200
  }

  /** The key of a command's timer: the device id, then '_', then the command. */
  function TimerKey(deviceid: string, cmd: string): (k: string)
    ensures |k| == |deviceid| + 1 + |cmd| && k[|deviceid|] == '_'
    ensures k[..|deviceid|] == deviceid && k[|deviceid| + 1..] == cmd
  {
    deviceid + "_" + cmd
  }

  /** The position of the first '_' in `k`, or |k| when there is none. */
  function FirstUnderscore(k: string): (i: nat)
    ensures i <= |k|
    ensures forall j :: 0 <= j < i ==> k[j] != '_'
    ensures i < |k| ==> k[i] == '_'
  {
    if |k| == 0 then 0
    else if k[0] == '_' then 0
    else 1 + FirstUnderscore(k[1..])
  }

  /** Splits a timer key at its first '_' back into device id and command. */
  function SplitKey(k: string): (r: Option<(string, string)>)
    ensures r.Some? ==> '_' !in r.value.0 && TimerKey(r.value.0, r.value.1) == k
    ensures r.None? <==> '_' !in k
  {
    var i := FirstUnderscore(k);
    if i == |k| then None
    else
      assert k == k[..i] + "_" + k[i + 1..];
      Some((k[..i], k[i + 1..]))
  }

  /** For device ids without '_' the key determines device and command. */
  lemma SplitKeyInvertsTimerKey(deviceid: string, cmd: string)
    requires '_' !in deviceid
    ensures SplitKey(TimerKey(deviceid, cmd)) == Some((deviceid, cmd))
  {
    var k := TimerKey(deviceid, cmd);
    var i := FirstUnderscore(k);
    assert k[|deviceid|] == '_';
    assert i == |deviceid|;
    assert k[..i] == deviceid;
    assert k[i + 1..] == cmd;
  }

  lemma TimerKeyInjective(d1: string, c1: string, d2: string, c2: string)
    requires '_' !in d1 && '_' !in d2
    requires TimerKey(d1, c1) == TimerKey(d2, c2)
    ensures d1 == d2 && c1 == c2
  {
    SplitKeyInvertsTimerKey(d1, c1);
    SplitKeyInvertsTimerKey(d2, c2);
  }

  /** A device id containing '_' lets two different (device, command) pairs
      share a timer, so that one cancels the other. */
  lemma TimerKeyCollision(a: string, b: string, c: string)
    ensures TimerKey(a + "_" + b, c) == TimerKey(a, b + "_" + c)
    ensures (a + "_" + b, c) != (a, b + "_" + c)
  {
    assert |a + "_" + b| != |a|;
  }

  /** The last command scheduled under a timer key, whether still waiting or
      already sent (the source never removes a fired timer's entry): the
      request was built when the command was scheduled. */
  datatype Pending = Pending(request: Request, delayMs: nat)

  /** The module-level `timers`: per key, the last command scheduled under it. */
  type Timers = map<string, Pending>

  /** `sendDeviceCommand`: builds the request now (the source calls
      `processDeviceCmd` before handing its closure to setTimeout) and puts it
      under its key, replacing whatever was pending there. */
  function ScheduleCommand(s: State, cfg: Config, timers: Timers, deviceid: string, cmd: string, vals: Value): (r: Timers)
    ensures r.Keys == timers.Keys + {TimerKey(deviceid, cmd)}
    ensures r[TimerKey(deviceid, cmd)].delayMs == Delay(cmd)
    ensures r[TimerKey(deviceid, cmd)].request == CommandRequest(s, cfg, deviceid, cmd, vals)
    ensures forall k :: k in timers && k != TimerKey(deviceid, cmd) ==> r[k] == timers[k]
  {
    timers[TimerKey(deviceid, cmd) := Pending(CommandRequest(s, cfg, deviceid, cmd, vals), Delay(cmd))]
  }

  /** A second command for the same device and name wipes out the first. */
  lemma LaterCommandReplaces(s1: State, s2: State, cfg: Config, timers: Timers,
                             deviceid: string, cmd: string, v1: Value, v2: Value)
    ensures ScheduleCommand(s2, cfg, ScheduleCommand(s1, cfg, timers, deviceid, cmd, v1), deviceid, cmd, v2)
            == ScheduleCommand(s2, cfg, timers, deviceid, cmd, v2)
  {
  }

  /** Commands under different keys do not interfere. */
  lemma DistinctKeysCommute(s: State, cfg: Config, timers: Timers,
                            d1: string, c1: string, v1: Value, d2: string, c2: string, v2: Value)
    requires TimerKey(d1, c1) != TimerKey(d2, c2)
    ensures ScheduleCommand(s, cfg, ScheduleCommand(s, cfg, timers, d1, c1, v1), d2, c2, v2)
            == ScheduleCommand(s, cfg, ScheduleCommand(s, cfg, timers, d2, c2, v2), d1, c1, v1)
  {
  }
}

=== FILE: errors.dfy ===
/** `handleError(src, err, allowLocal)` of ST_Client: sorts a failed request
    into one of five outcomes, or throws itself when the error has no string
    message; only a connect timeout on a request that allows it reaches the
    local-hub state machine. */
module Errors {
  import opened Wrappers
  import opened Strings
  import opened HubState

  /** The parts of an error the client inspects: `err.status`, compared with
      `===` (None when absent or not a number), and `err.message` (None when
      it is not a string, as for a thrown string or a plain object). */
  datatype ErrorInfo = ErrorInfo(status: Option<int>, message: Option<string>)

  datatype Outcome =
    | TokenError     // 401: logged as a token error
    | AuthError      // 403: logged as an authentication error
    | NetworkError   // DNS lookup failure: logged
    | LocalHubDown   // connect timeout on a request that allows it: localHubErr(true)
    | Unexpected     // anything else: logged and reported to sentry
    | HandlerThrew   // no string message: `err.message.startsWith` throws

  datatype Handled = Handled(state: State, outcome: Outcome)

  const DnsFailurePrefix: string := "getaddrinfo EAI_AGAIN"
  const ConnectTimeoutPrefix: string := "Error: connect ETIMEDOUT "

  /** `err.message.startsWith(p)`, for an error whose message is a string. */
  predicate MessageStartsWith(err: ErrorInfo, p: string) {
    err.message.Some? && StartsWith(err.message.value, p)
  }

  /** The conditions under which the source calls `localHubErr(true)`, stated
      as one conjunction rather than as the nested switch. */
  predicate TriggersLocalHubErr(err: ErrorInfo, allowLocal: bool) {
    && err.status != Some(401)
    && err.status != Some(403)
    && !MessageStartsWith(err, DnsFailurePrefix)
    && allowLocal
    && MessageStartsWith(err, ConnectTimeoutPrefix)
  }

  /** Only the generic outcome is reported to sentry. */
  predicate ReportedToSentry(o: Outcome) {
    o == Unexpected
  }

  function Classify(err: ErrorInfo, allowLocal: bool): (o: Outcome)
    ensures o == TokenError <==> err.status == Some(401)
    ensures o == AuthError <==> err.status == Some(403)
    ensures o == HandlerThrew <==>
              err.status != Some(401) && err.status != Some(403) && err.message.None?
    ensures o == NetworkError <==>
              err.status != Some(401) && err.status != Some(403) &&
              MessageStartsWith(err, DnsFailurePrefix)
    ensures o == LocalHubDown <==> TriggersLocalHubErr(err, allowLocal)
    ensures ReportedToSentry(o) <==>
              err.status != Some(401) && err.status != Some(403) && err.message.Some? &&
              !MessageStartsWith(err, DnsFailurePrefix) &&
              !(allowLocal && MessageStartsWith(err, ConnectTimeoutPrefix))
  {
    match err.status
    case Some(401) => TokenError
    case Some(403) => AuthError
    case _ =>
      match err.message
      case None => HandlerThrew
      case Some(msg) =>
        if StartsWith(msg, DnsFailurePrefix) then NetworkError
        else if allowLocal && StartsWith(msg, ConnectTimeoutPrefix) then LocalHubDown
        else Unexpected
  }

  /** `handleError`: classification plus its one effect on client state. */
  function HandleError(s: State, err: ErrorInfo, allowLocal: bool): (r: Handled)
    ensures r.outcome == Classify(err, allowLocal)
    ensures r.outcome == LocalHubDown ==> r.state == LocalHubErr(s, true).state
    ensures r.outcome != LocalHubDown ==> r.state == s
    ensures r.state.hubIp == s.hubIp && r.state.localErrCnt == s.localErrCnt
    ensures Inv(s) ==> Inv(r.state)
  {
    var o := Classify(err, allowLocal);
    if o == LocalHubDown then Handled(LocalHubErr(s, true).state, o) else Handled(s, o)
  }

  /** The DNS check in front of the timeout check never hides a timeout: no
      message starts with both prefixes. */
  lemma TimeoutIsNeverDnsFailure(msg: string)
    ensures !(StartsWith(msg, DnsFailurePrefix) && StartsWith(msg, ConnectTimeoutPrefix))
  {
    PrefixesDisagree(msg, DnsFailurePrefix, ConnectTimeoutPrefix, 0);
  }

  /** Under the invariant, an error alters client state exactly when it
      triggers `localHubErr(true)` while local commands are on. */
  lemma HandleErrorChangesStateIff(s: State, err: ErrorInfo, allowLocal: bool)
    requires Inv(s)
    ensures HandleError(s, err, allowLocal).state != s <==>
              TriggersLocalHubErr(err, allowLocal) && s.useLocal
    ensures !SendAsLocalCmd(s) ==> !SendAsLocalCmd(HandleError(s, err, allowLocal).state)
  {
  }

  /** Requests that leave `allowLocal` at its default (`getDevices`,
      `getDevice`) never alter local state. */
  lemma DefaultNeverTouchesHub(s: State, err: ErrorInfo)
    ensures HandleError(s, err, false).state == s
    ensures HandleError(s, err, false).outcome != LocalHubDown
  {
  }
}

=== FILE: hub_state.dfy ===
/** The local-hub health state machine of ST_Client (src/ST_Client.js):
    the flags `useLocal` and `localDisabled`, the hub address `hubIp`, and the
    counter `localErrCnt` that the client initialises and never updates. */
module HubState {
  import opened Wrappers

  datatype State = State(useLocal: bool, localDisabled: bool, hubIp: Option<string>, localErrCnt: nat)

  /** The outcome of `localHubErr`: the new state, and whether it issued a
      start-direct request (`sendStartDirect`). */
  datatype Step = Step(state: State, startDirect: bool)

  /** The client never has local commands on while it considers the hub disabled. */
  predicate Inv(s: State) {
    !(s.useLocal && s.localDisabled)
  }

  /** `sendAsLocalCmd()`: commands go to the local hub. Under the invariant
      that only happens while the hub is not disabled, and never without a
      hub address. */
  predicate SendAsLocalCmd(s: State)
    ensures SendAsLocalCmd(s) ==> s.hubIp.Some?
    ensures SendAsLocalCmd(s) && Inv(s) ==> !s.localDisabled
  {
    s.useLocal && s.hubIp.Some?
  }

  /** The state the constructor leaves behind, given `platform.local_hub_ip`. */
  function Init(localHubIp: Option<string>): (s: State)
    ensures !s.useLocal && !s.localDisabled
    ensures Inv(s) && !SendAsLocalCmd(s)
    ensures s.localErrCnt == 0 && s.hubIp == localHubIp
  {
    State(false, false, localHubIp, 0)
  }

  /** `localHubErr(hasErr)`: an error disables local commands if they were on;
      a success re-enables them if an earlier error disabled them, and then
      asks the hub for a direct connection. */
  function LocalHubErr(s: State, hasErr: bool): (r: Step)
    ensures r.state.hubIp == s.hubIp && r.state.localErrCnt == s.localErrCnt
    ensures hasErr ==> !r.startDirect
    ensures hasErr && s.useLocal && !s.localDisabled ==>
              !r.state.useLocal && r.state.localDisabled
    ensures hasErr && !(s.useLocal && !s.localDisabled) ==> r.state == s
    ensures !hasErr ==> (r.startDirect <==> s.localDisabled)
    ensures !hasErr && s.localDisabled ==> r.state.useLocal && !r.state.localDisabled
    ensures !hasErr && !s.localDisabled ==> r.state == s
    ensures Inv(s) ==> Inv(r.state)
  {
    if hasErr then
      if s.useLocal && !s.localDisabled then
        Step(s.(useLocal := false, localDisabled := true), false)
      else
        Step(s, false)
    else if s.localDisabled then
      Step(s.(useLocal := true, localDisabled := false), true)
    else
      Step(s, false)
  }

  /** `updateGlobals(hubIp, useLocal)`: records the hub address; the `useLocal`
      argument is ignored and local commands are switched off. */
  function UpdateGlobals(s: State, hubIp: Option<string>, useLocal: bool): (r: State)
    ensures r.hubIp == hubIp && !r.useLocal
    ensures r.localDisabled == s.localDisabled && r.localErrCnt == s.localErrCnt
    ensures Inv(r) && !SendAsLocalCmd(r)
  {
    s.(hubIp := hubIp, useLocal := false)
  }

  /** Under the invariant, an error always leaves local commands off, and the
      hub ends up disabled exactly when local commands were on or it already was. */
  lemma ErrorLeavesLocalOff(s: State)
    requires Inv(s)
    ensures !LocalHubErr(s, true).state.useLocal
    ensures LocalHubErr(s, true).state.localDisabled <==> (s.useLocal || s.localDisabled)
    ensures !SendAsLocalCmd(LocalHubErr(s, true).state)
  {
  }

  /** A success never leaves the hub disabled, and it turns local commands on
      exactly when they were on or the hub had been disabled. */
  lemma SuccessClearsDisabled(s: State)
    requires Inv(s)
    ensures !LocalHubErr(s, false).state.localDisabled
    ensures LocalHubErr(s, false).state.useLocal <==> (s.useLocal || s.localDisabled)
  {
  }

  /** Disabling and then recovering restores the original state, with exactly
      one start-direct request, issued by the recovery. */
  lemma DisableThenRecover(s: State)
    requires s.useLocal && !s.localDisabled
    ensures !LocalHubErr(s, true).startDirect
    ensures LocalHubErr(LocalHubErr(s, true).state, false).state == s
    ensures LocalHubErr(LocalHubErr(s, true).state, false).startDirect
  {
  }

  /** Repeating a report changes nothing further and issues no further
      start-direct request. */
  lemma ReportsAreIdempotent(s: State, hasErr: bool)
    ensures LocalHubErr(LocalHubErr(s, hasErr).state, hasErr).state == LocalHubErr(s, hasErr).state
    ensures !LocalHubErr(LocalHubErr(s, hasErr).state, hasErr).startDirect
  {
  }

  /** Updating the globals twice is the same as keeping the second address only. */
  lemma UpdateGlobalsLastWins(s: State, ip1: Option<string>, ip2: Option<string>, u1: bool, u2: bool)
    ensures UpdateGlobals(UpdateGlobals(s, ip1, u1), ip2, u2) == UpdateGlobals(s, ip2, u2)
  {
  }
}

=== FILE: requests.dfy ===
/** The requests ST_Client builds for a device command (`processDeviceCmd`)
    and for a start-direct registration (`sendStartDirect`), without the
    transport that sends them. Every request modelled here is a POST. */
module Requests {
  import opened Wrappers
  import opened HubState

  /** The configuration items and constants the requests are built from;
      `platformName` and `pluginVersion` come from the constants module and
      are opaque strings here. */
  datatype Config = Config(
    appUrl: string, appId: string, accessToken: string,
    directIp: string, directPort: string,
    platformName: string, pluginVersion: string)

  /** A JavaScript value the client passes through without looking inside
      (the command's `vals`). */
  datatype Value = Undefined | Json(text: string)

  datatype Headers = Headers(evtsource: string, evttype: string)

  datatype Body =
    | RawVals(vals: Value)
    | HubCommand(deviceid: string, command: string, values: Value, evtsource: string, evttype: string)
    | DirectInfo(ip: string, port: string, version: string, evtsource: string, evttype: string)

  /** `accessToken` is the `access_token` query parameter; None when the
      request carries no `params` at all. */
  datatype Request = Request(url: string, accessToken: Option<string>, headers: Headers, body: Body, timeoutMs: nat)

  const CommandEventType: string := "hkCommand"
  const DirectEventType: string := "enableDirect"
  const CommandTimeoutMs: nat := 5000
  const DirectTimeoutMs: nat := 10000

  function EventSource(cfg: Config): string {
    "Homebridge_" + cfg.platformName + "_" + cfg.appId
  }

  /** The local hub's event endpoint on port 39500. */
  function HubEventUrl(hubIp: string): string {
    "http://" + hubIp + ":39500/event"
  }

  function CloudCommandUrl(cfg: Config, deviceid: string, cmd: string): string {
    cfg.appUrl + cfg.appId + "/" + deviceid + "/command/" + cmd
  }

  function StartDirectUrl(cfg: Config): string {
    cfg.appUrl + cfg.appId + "/startDirect/" + cfg.directIp + "/" + cfg.directPort + "/" + cfg.pluginVersion
  }

  /** A request is addressed to the local hub when it carries no token. */
  predicate ToHub(r: Request) {
    r.accessToken.None?
  }

  /** `processDeviceCmd`: the routing is decided once, from `sendAsLocalCmd()`,
      when the request is built. The cloud request carries the access token and
      the raw values; the hub request carries no token and wraps the values. */
  function CommandRequest(s: State, cfg: Config, deviceid: string, cmd: string, vals: Value): (r: Request)
    ensures ToHub(r) <==> s.useLocal && s.hubIp.Some?
    ensures ToHub(r) ==>
              && r.url == HubEventUrl(s.hubIp.value)
              && r.body == HubCommand(deviceid, cmd, vals, EventSource(cfg), CommandEventType)
    ensures !ToHub(r) ==>
              && r.url == CloudCommandUrl(cfg, deviceid, cmd)
              && r.accessToken == Some(cfg.accessToken)
              && r.body == RawVals(vals)
    ensures r.headers == Headers(EventSource(cfg), CommandEventType) && r.timeoutMs == CommandTimeoutMs
  {
    var cloud := Request(CloudCommandUrl(cfg, deviceid, cmd), Some(cfg.accessToken),
                         Headers(EventSource(cfg), CommandEventType), RawVals(vals), CommandTimeoutMs);
    if SendAsLocalCmd(s) then
      cloud.(url := HubEventUrl(s.hubIp.value), accessToken := None,
             body := HubCommand(deviceid, cmd, vals, EventSource(cfg), CommandEventType))
    else
      cloud
  }

  /** `sendStartDirect`: the same routing rule, but the body is the direct
      connection's address either way. */
  function StartDirectRequest(s: State, cfg: Config): (r: Request)
    ensures ToHub(r) <==> s.useLocal && s.hubIp.Some?
    ensures ToHub(r) ==> r.url == HubEventUrl(s.hubIp.value)
    ensures !ToHub(r) ==> r.url == StartDirectUrl(cfg) && r.accessToken == Some(cfg.accessToken)
    ensures r.body == DirectInfo(cfg.directIp, cfg.directPort, cfg.pluginVersion, EventSource(cfg), DirectEventType)
    ensures r.headers == Headers(EventSource(cfg), DirectEventType) && r.timeoutMs == DirectTimeoutMs
  {
    var cloud := Request(StartDirectUrl(cfg), Some(cfg.accessToken),
                         Headers(EventSource(cfg), DirectEventType),
                         DirectInfo(cfg.directIp, cfg.directPort, cfg.pluginVersion, EventSource(cfg), DirectEventType),
                         DirectTimeoutMs);
    if SendAsLocalCmd(s) then cloud.(url := HubEventUrl(s.hubIp.value), accessToken := None) else cloud
  }

  /** Both routes name the same device, command and values: the hub request in
      its body, the cloud request in its URL and body. */
  lemma CommandIdentityPreserved(s: State, cfg: Config, deviceid: string, cmd: string, vals: Value)
    ensures var r := CommandRequest(s, cfg, deviceid, cmd, vals);
            (r.body.HubCommand? && r.body.deviceid == deviceid && r.body.command == cmd && r.body.values == vals)
            || (r.body == RawVals(vals) && r.url == CloudCommandUrl(cfg, deviceid, cmd))
  {
  }

  /** Once a success re-enables a disabled hub, both the start-direct request
      it triggers and every later command go to the hub, when its address is known. */
  lemma RecoveryRoutesToHub(s: State, cfg: Config, deviceid: string, cmd: string, vals: Value)
    requires Inv(s) && s.localDisabled && s.hubIp.Some?
    ensures LocalHubErr(s, false).startDirect
    ensures ToHub(StartDirectRequest(LocalHubErr(s, false).state, cfg))
    ensures ToHub(CommandRequest(LocalHubErr(s, false).state, cfg, deviceid, cmd, vals))
  {
  }

  /** After an error report or a globals update, commands go to the cloud with
      the access token. */
  lemma ErrorOrUpdateRoutesToCloud(s: State, cfg: Config, ip: Option<string>, useLocal: bool,
                                   deviceid: string, cmd: string, vals: Value)
    requires Inv(s)
    ensures CommandRequest(LocalHubErr(s, true).state, cfg, deviceid, cmd, vals).accessToken == Some(cfg.accessToken)
    ensures CommandRequest(UpdateGlobals(s, ip, useLocal), cfg, deviceid, cmd, vals).accessToken == Some(cfg.accessToken)
  {
  }
}

=== FILE: strings.dfy ===
/** The string operations the client relies on, over `seq<char>`. */
module Strings {

  /** JavaScript's `s.startsWith(p)`. */
  predicate StartsWith(s: string, p: string) {
    |p| <= |s| && s[..|p|] == p
  }

  /** Two prefixes that disagree at some position below both lengths can never
      both start the same string. */
  lemma PrefixesDisagree(s: string, p: string, q: string, i: nat)
    requires i < |p| && i < |q| && p[i] != q[i]
    ensures !(StartsWith(s, p) && StartsWith(s, q))
  {
  }
}

=== FILE: wrappers.dfy ===
/** Optional values: `None` stands for JavaScript's `undefined`. */
module Wrappers {

  datatype Option<+T> = None | Some(value: T)
}
